=== FILE: README.md ===
# Fitness tracker renderer — a Dafny model

The tracker keeps a list of workout entries. Each entry has a date key
`YYYY-MM-DD`, an intensity (`hard` or `moderate`) and a number of minutes. It
shows the current Monday-to-Sunday week as seven day columns and a progress
bar toward the weekly goal of 150 "equivalent minutes", where a hard minute
counts twice. A strip below shows the current week and the three weeks
before it. This project models the renderer's logic and proves properties
of it:

- the date helpers `ymd`, `parseDate`, `startOfWeek` and `isInSameWeek`;
- `sanitizeEntries`;
- the handlers that change the entry list and the current file;
- the arithmetic behind `showWeek` and `showFourWeeks`.

Modules, one per file:

- `wrappers.dfy` (`Wrappers`): `Option`.
- `js_text.dfy` (`JsText`): the parts of JavaScript's number and string
  behaviour the renderer relies on:
  - `String(n)` of an integer;
  - `Number(s)` of a string;
  - `padStart`;
  - `split` on one character;
  - truthiness of numbers.
- `calendar.dfy` (`Calendar`): the proleptic Gregorian calendar, following
  the ECMAScript day arithmetic.
  - A `Date` at midnight is a whole day number. Day 0 is 0001-01-01.
  - `MakeDay` normalises out-of-range months the way `new Date(y, m, d)`
    does.
  - `ToCivil` gives `getFullYear`/`getMonth`/`getDate`.
  - `GetDay` gives `getDay`.
- `dates.dfy` (`Dates`): `ymd` (`Ymd`), `parseDate` (`ParseDate`),
  `startOfWeek` (`StartOfWeek`) and `isInSameWeek` (`IsInSameWeek`). It also
  proves the key codec: `ParseDate(Ymd(n)) == Some(n)` from year 100 on, and,
  for years 1 to 99, the shift to year 1900 + y (`SmallYearIsShifted`).
- `entries.dfy` (`Entries`): raw JSON records, the coercion and filter of
  `sanitizeEntries` (`Sanitize`), and how a list is stored and read back.
- `app.dfy` (`App`): the globals `currentFilePath` and `entries` as a state
  value.
  - `addEntry`, `chooseFile`/`initApp`, `createNewFile` and `reloadFile` are
    pure transitions.
  - Alerts and saves are returned as effects.
  - The main process's reply is a parameter.
- `progress.dfy` (`Progress`): per-day and per-week totals, equivalent
  minutes, the goal flag, the percentages and bar widths of `showWeek`
  (`ShowWeek`) and `showFourWeeks` (`FourWeeks`).
  - The day-column helpers take the key function as a parameter; the views
    pass `Ymd`.
  - The theorem that the week total is the sum of the seven columns needs
    every stored date to be canonical, i.e. written exactly as `ymd` writes
    it. `NonCanonicalDateEscapesColumns` shows why: without that, an entry
    can count in the week and in no column.

"Today" is a parameter wherever the source reads the clock.

## Model

| member | source | states |
|---|---|---|
| JsText.NatText | renderer.js:9-12 | The decimal text of a natural number is non-empty and all digits, with no leading zero; it is one character exactly for numbers below 10 |
| JsText.NumberOfNatText | renderer.js:15 | `Number` reads back the value `String` wrote: `NumberOf(NatText(n)) == Finite(n)` |
| JsText.NatTextInjective | renderer.js:9-12 | Different natural numbers have different decimal texts |
| JsText.IntTextInjective | renderer.js:9-12 | Different integers, negative ones included, have different `String` texts |
| JsText.IntText | renderer.js:9-12 | `String(n)` of an integer: a `-` before the digits of a negative number; stated by `JsText.NatText`, `JsText.NumberOfNatText` and `JsText.IntTextInjective` |
| JsText.NumberOf | renderer.js:15 | `Number(s)` is finite exactly when s is all digits, is then non-negative, and is 0 for the empty string |
| JsText.PadStart | renderer.js:10-11 | `padStart` returns a string of length max(\|s\|, width) that ends with s and has only the pad character before it |
| JsText.Pad2IsPadStart | renderer.js:10-11 | The two-character month/day field equals `String(k).padStart(2,'0')` for every integer k |
| JsText.Pad2 | renderer.js:10-11 | The padded month/day field; `JsText.Pad2IsPadStart` shows it is `String(k).padStart(2,'0')` and `JsText.Pad2Digits` that it reads back as k |
| JsText.Pad2Digits | renderer.js:10-11 | For 1..99 the padded field is exactly two digits, and its digits read back as k |
| JsText.Pad2Injective | renderer.js:10-11 | Different months (days) in 1..99 get different padded fields |
| JsText.Split | renderer.js:15 | `split` always returns at least one part |
| JsText.SplitJoin | renderer.js:15 | Joining the parts of a split with the separator gives the original string back |
| JsText.SplitNoSeparator | renderer.js:15 | A string without the separator splits into itself alone |
| JsText.SplitAtSeparator | renderer.js:15 | Splitting `a + sep + b`, where a has no separator, gives a followed by the parts of b |
| Calendar.ToCivilCorrect | renderer.js:9-11 | The year, month and day read off a day number form a real calendar date, and that date's day number is the day itself |
| Calendar.ToCivil | renderer.js:9-11 | `getFullYear`, `getMonth() + 1` and `getDate` of a day; `Calendar.ToCivilCorrect` and `Calendar.ToCivilOfDayNumber` show it inverts `Calendar.MakeDay` on valid dates |
| Calendar.ToCivilOfDayNumber | renderer.js:16 | Building a day from a valid year, month and day, and reading the fields back, returns the same fields |
| Calendar.DayNumberInjective | renderer.js:16 | Different valid dates are different days |
| Calendar.YearStep | renderer.js:16 | The days before year y+1 are the days before year y plus the length of year y, under the 4/100/400 leap rule |
| Calendar.EpochIsThursday | renderer.js:21 | The weekday numbering agrees with `getDay`: 1970-01-01 is day 4, a Thursday |
| Calendar.GetDay | renderer.js:21 | `getDay` is always 0..6; `Calendar.EpochIsThursday` anchors it to the real weekdays |
| Calendar.MakeDay | renderer.js:16 | The day arithmetic of `new Date(y, mi, d)`; its meaning is stated by `Calendar.MonthCarry`, `Calendar.DayCarry` and `Calendar.ToCivilOfDayNumber` |
| Calendar.MonthCarry | renderer.js:16 | Twelve months past a month index is the same month one year later |
| Calendar.DayCarry | renderer.js:16 | One day more is the next day, and the day after the last of a month is the first of the next month, or of January the next year |
| Calendar.CenturyLater | renderer.js:16 | The same month and day 1900 years later is a later day |
| Dates.OrOne | renderer.js:16 | `m \|\| 1` keeps a truthy number unchanged, and turns a missing field, NaN or 0 into exactly 1 |
| Dates.Ymd | renderer.js:8-13 | The key of a day; its meaning is stated by `Dates.YmdFormat`, `Dates.YmdEqualIff` and `Dates.ParseYmd` |
| Dates.ParseDate | renderer.js:14-17 | `parseDate`; its meaning is stated by `Dates.ParseYmd`, the `Parse…` lemmas, `Dates.UnpaddedFields` and `Dates.SmallYearIsShifted` |
| Dates.NewDate | renderer.js:16 | `new Date(y, mi, d)` on the fields; stated by `Dates.TwoDigitYears` and the carry lemmas of `Calendar.MakeDay` |
| Dates.TwoDigitYears | renderer.js:16 | Only a NaN year gives an Invalid Date; a year from 0 to 99 means the same as that year plus 1900, and any other year means itself |
| Dates.IsInSameWeek | renderer.js:26-31 | `isInSameWeek`; its meaning is stated by `Dates.IsInSameWeekOfYmd` and `Progress.CanonicalInWeek` |
| Dates.NotAKey | renderer.js:8-13 | A string whose third character from the end is not `-` is never a key `ymd` writes |
| Dates.YmdFormat | renderer.js:8-13 | For years 1000..9999 a key is exactly `YYYY-MM-DD`, and its three digit fields read back as the year, month and day |
| Dates.YmdEqualIff | renderer.js:8-13 | Two days have the same key if and only if they are the same day |
| Dates.ParseYmd | renderer.js:8-17 | From year 100 on, `parseDate(ymd(d))` is d again |
| Dates.YmdIsCanonical | renderer.js:8-17 | From year 100 on, every key `ymd` writes is canonical: parsing it and writing it again gives the same string |
| Dates.ParseYearOnly | renderer.js:14-17 | A bare year is read as the first of January of that year |
| Dates.ParseYearMonth | renderer.js:14-17 | A year and month, with or without a trailing `-`, are read as the first of that month |
| Dates.ParseZeroFields | renderer.js:14-17 | A `00` month or day is read as 1, because 0 is falsy |
| Dates.UnpaddedFields | renderer.js:14-17 | One-digit month and day fields without padding (`2024-1-1`) denote the same day as the padded ones |
| Dates.SmallYearIsShifted | renderer.js:8-17 | For years 1..99 the round trip fails: the key is read as the same date in year 1900 + y, which is never the original day |
| Dates.StartOfWeek | renderer.js:18-25 | The start of a day's week is a Monday, at most six days before that day |
| Dates.MondayBlock | renderer.js:18-25 | Each of the seven days from a Monday has that Monday as its week start |
| Dates.StartOfWeekIdempotent | renderer.js:18-25 | The week start of a week start is itself |
| Dates.SameWeekIffBlock | renderer.js:26-31 | Two days are in the same week exactly when the second lies in the Monday-to-Sunday block of the first |
| Dates.SameWeekIsEquivalence | renderer.js:26-31 | Being in the same week is reflexive, symmetric and transitive |
| Dates.FarApartNotSameWeek | renderer.js:26-31 | Days seven or more apart are never in the same week |
| Dates.StartOfWeekShift | renderer.js:88-90 | Going back w weeks from a day moves its week start back by exactly 7w days |
| Dates.IsInSameWeekOfYmd | renderer.js:26-31 | From year 100 on, `isInSameWeek(ymd(x), ref)` holds exactly when x and ref share a week |
| Entries.DateText | renderer.js:34 | `String(e.date \|\| '')` is empty exactly when the stored date is falsy |
| Entries.IntensityOf | renderer.js:35 | The type is hard exactly when it is the string `hard`; anything else becomes moderate |
| Entries.MinutesOf | renderer.js:36 | `Number(e.minutes) \|\| 0` is the number when it is finite and 0 when it is NaN |
| Entries.Sanitize | renderer.js:32-38 | The sanitised list is never longer than the input, and every entry in it has a date and positive minutes |
| Entries.Coerce | renderer.js:33-37 | The `map` step of `sanitizeEntries`; its meaning is stated by `Entries.TypeNeverDrops`, `Entries.SanitizeOne` and `Entries.CoerceStored` |
| Entries.SanitizeAppend | renderer.js:32-38 | Sanitising a concatenation sanitises each part, so records keep their order |
| Entries.SanitizeOne | renderer.js:33-37 | A single record survives exactly when its date is truthy and its minutes are positive, and it survives coerced |
| Entries.SanitizeFromInput | renderer.js:32-38 | An entry is in the result if and only if it is the coerced form of some input record and has a date and positive minutes |
| Entries.TypeNeverDrops | renderer.js:35-37 | The type test of the filter never removes anything: a record is kept exactly when its date and minutes pass, and an unknown type becomes moderate |
| Entries.SanitizeIgnoresType | renderer.js:32-38 | Changing every record's type field leaves the number of survivors and their dates and minutes unchanged |
| Entries.CoerceStored | renderer.js:33-37 | A valid entry written to the file and coerced again is unchanged |
| Entries.SanitizeValidIsIdentity | renderer.js:32-38 | Sanitising a stored list of valid entries returns exactly that list |
| Entries.ToRaw | renderer.js:174 | The record a saved entry is read back as; `Entries.CoerceStored` shows coercing it gives the entry back |
| Entries.Stored | renderer.js:174 | The saved list read back holds one record per entry, in order, each the entry's stored form; `Entries.SanitizeValidIsIdentity` shows sanitising it gives the list back |
| Entries.SanitizeIdempotent | renderer.js:32-38 | Sanitising twice is the same as sanitising once |
| App.AddEntry | renderer.js:178-187 | With no file (no path, or an empty one) it only alerts. With falsy or non-positive minutes or an unknown type it changes nothing. Otherwise it keeps the file, saves exactly the new list, and the list stays sanitised. From a sanitised list it appends exactly one entry: today's key, the type, the minutes |
| App.AddAppends | renderer.js:181-183 | Pushing the new record and sanitising a list that is already sanitised gives the old list plus the new entry |
| App.OpenFile | renderer.js:142-150 | A reply with a non-empty path (the empty string is falsy, like a missing path) replaces the current file and the list by the sanitised entries of the reply, so the list is sanitised afterwards whatever the file held; a reply without one changes nothing, so a sanitised list stays sanitised |
| App.CreateFile | renderer.js:152-160 | A new file starts with an empty list; a cancelled dialog, or an empty path, changes nothing; either way a sanitised list stays sanitised |
| App.ReloadFile | renderer.js:162-171 | Without a current file, or when the reply has no path (a missing or empty path is falsy in both tests), reloading changes nothing; otherwise the file and the sanitised entries of the reply replace the state, which is then sanitised; a sanitised list always stays sanitised |
| App.HandlersKeepInvariant | renderer.js:142-187 | Opening, creating, reloading and adding all leave a sanitised entry list behind |
| App.AddedDateIsCanonical | renderer.js:181-183 | The entry added (from year 100 on) is the last one, and its date is a canonical key |
| Progress.Clamp | renderer.js:73 | The week bar width lies in [0, 100]: it equals the percentage when that is in range, is 100 at or above 100 and 0 at or below 0 |
| Progress.AtMost100 | renderer.js:96 | The small bar width is the smaller of the percentage and 100: at most both, and equal to one of them |
| Progress.RoundedPercent | renderer.js:77 | The label is the integer nearest to the exact percentage, halves rounded up |
| Progress.ShowWeek | renderer.js:51-82 | The week view has seven columns and equivalent minutes = moderate + 2·hard. The percentage is (eq / 150) · 100, unclamped, so 300 equivalent minutes show 200. It is green exactly when the goal of 150 is met, and exactly when the bar is full. The bar width lies in [0, 100] and is the percentage when that is in range. The label is the integer nearest the percentage |
| Progress.FourWeeks | renderer.js:84-105 | Four rows; the first starts at this week's Monday; each row's Monday is 7 days before the previous one's; every row runs from a Monday to the Sunday six days later |
| Progress.TodayColumn | renderer.js:59-64 | Column i is marked as today exactly when Monday + i is today |
| Progress.WeekRowOf | renderer.js:87-97 | A row runs from the Monday of the reference day's week to the Sunday six days later, has eq = mod + 2·hard, is green exactly when eq ≥ 150, and its bar is min(100, (eq / 150) · 100) |
| Progress.FourWeeksAreWeekViews | renderer.js:87-97 | Row w of the four-week view shows the week of today − 7w with the same hard, moderate and equivalent totals and goal state as the week view of that day, and its bar is that view's percentage capped at 100 |
| Progress.RowOfFourWeeks | renderer.js:87-90 | Row w is built from the reference day today − 7w |
| Progress.Total | renderer.js:61-63 | The filter-and-sum of minutes of one intensity in one bucket; its meaning is stated by `Progress.TotalSingle` (what one record adds) and `Progress.TotalAppend` (records add up), which together fix it on every list |
| Progress.TotalAppend | renderer.js:61-63 | The total over a concatenation is the sum of the totals, so the order of the records does not matter |
| Progress.TotalSingle | renderer.js:61-63 | A single record adds its minutes to a total exactly when its intensity matches and its date is in the bucket, and adds 0 otherwise |
| Progress.ColumnContents | renderer.js:56-63 | Column i shows the key of Monday + i and the hard and moderate totals of entries with exactly that key |
| Progress.DayCellOf | renderer.js:56-64 | One day column; `Progress.ColumnContents` and `Progress.TodayColumn` state its key, totals and today mark |
| Progress.Columns | renderer.js:56-64 | One column per day of the run, as many as days; `Progress.ColumnContents`, `Progress.TodayColumn` and `Progress.ColumnsAreDayTotals` state their contents |
| Progress.GoalIffFullPercent | renderer.js:71-74 | The percentage reaches 100 exactly when the equivalent minutes reach 150 |
| Progress.EquivalentMinutes | renderer.js:71 | `mod + hard*2`; `Progress.GoalExamples` shows a hard minute counts twice against the goal |
| Progress.Percent | renderer.js:72 | `(eq / 150) * 100` as an exact fraction; `Progress.GoalIffFullPercent` shows it reaches 100 exactly at the goal of 150 |
| Progress.GoalExamples | renderer.js:79 | 75 hard minutes or 150 moderate minutes each meet the goal exactly; 74 hard and 1 moderate do not |
| Progress.FourMondays | renderer.js:87-90 | For the four reference days today − 7w, the week starts are this week's Monday minus 7w |
| Progress.TotalNonNegative | renderer.js:62-63 | Totals over a sanitised list are never negative |
| Progress.FourWeekBars | renderer.js:95-97 | Over a sanitised list, every small bar lies in [0, 100] and is full exactly when its row is green |
| Progress.ViewsAgree | renderer.js:69-74 | The w = 0 case of `Progress.FourWeeksAreWeekViews`: the first row of the four-week view has the same hard, moderate and equivalent totals and the same goal state as the week view |
| Progress.KeysMembership | renderer.js:56-59 | The key of day x is among the keys of a run of days exactly when x lies in the run |
| Progress.CanonicalInWeek | renderer.js:26-31 | A canonical date is in ref's week exactly when it is one of that week's seven column keys |
| Progress.WeekTotalIsSumOfDays | renderer.js:56-70 | When all dates are canonical, the week total of an intensity is the sum of the seven per-day totals |
| Progress.ColumnsAreDayTotals | renderer.js:56-63 | The column sum of an intensity over a run of days is the sum of those days' totals |
| Progress.DayColumnsAddUp | renderer.js:56-70 | When all dates are canonical, the hard and moderate week totals equal the sums of the seven columns above them |
| Progress.NotInWeekDays | renderer.js:59-61 | A string that does not end in `-DD` matches none of a week's column keys |
| Progress.NonCanonicalDateEscapesColumns | renderer.js:61-70 | A parseable date that does not end in `-DD` counts its minutes in its week's total but in no column |

## Left out

- The main process and the preload bridge (`main.js`, `preload.js`) are not part of this model. This covers reading and writing the JSON file, the file dialogs, remembering the last file and dark mode, and IPC. Their replies are parameters (`FileReply`), and the save is an `Effect`.
- HTML and the DOM are left out. This covers the markup strings, day names, `formatDateShort` (`toLocaleDateString`), `updateFileStatus`, the theme toggle, `setupQuickButtons` and clearing the custom-minutes field. Each view is returned as a value instead.
- Time of day, time zones, daylight saving and `setHours` are left out. A `Date` at local midnight is a whole day number. ECMAScript's TimeClip limit of ±8.64e15 ms is not imposed, so days beyond it are ordinary days here.
- JsText.NumberOf: `Number` of a string is modelled only for the empty string and plain decimal digits. Signs, whitespace, decimal points, exponents and hexadecimal read as NaN here, though JavaScript reads them as numbers. For minutes this drops a record like `"1.5"`, which the source would keep with 1.5 minutes.
- Entries.JsonValue: fractional numbers, objects and arrays in the stored records are not modelled; numbers are integers.
- Progress.Percent: percentages are exact rationals (`real`), not IEEE doubles. Because 100·eq/150 never ends in exactly .5, `Math.round` has no tie to break.
- Asynchrony is left out. Each handler is one atomic step from the moment the main process has replied; interleavings of several pending handlers are not modelled. A failed save is not modelled either.
- `initApp`'s dark-mode flag and the "restored" status text are left out. Its file reply is handled like `chooseFile` (`App.OpenFile`).
- A `null` element in the file's array is not modelled: every element is a record here (a number or string element behaves like a record without fields, which the filter drops). In the source, `e.date` in `sanitizeEntries` throws a TypeError on `null` after `chooseFile` has already stored the path and the raw list, so that list is never sanitised and nothing is drawn.
- Fractional minutes entered in the custom field (for example 2.5) are not modelled: `addEntry` stores them as they are, but minutes are integers here.
- `entries || []`, which guards a null list, is left out: the list is always a sequence here.
- `Number(e.minutes)` inside the totals is the identity after sanitising, so totals add the integer minutes directly.
- Entries.Sanitize: the filter in `sanitizeEntries` tests the type, which reads as if records with an unknown type were dropped. But the `map` before it coerces every type other than `hard` to `moderate`, so the type test never drops anything. The model follows the code; `TypeNeverDrops` and `SanitizeIgnoresType` state this.
- App.AddEntry: the exact "one entry appended" postcondition is stated for a sanitised starting list, which every handler leaves behind (`HandlersKeepInvariant`). From an unsanitised list, `addEntry` also sanitises the old records.
- Dates.YmdFormat: the fixed `YYYY-MM-DD` shape is stated for four-digit years only. Other years have shorter or longer year texts, which `ParseYmd` and `SmallYearIsShifted` cover.

=== FILE: app.dfy ===
/**
 The renderer's mutable globals (`currentFilePath`, `entries`) as an explicit
 state, and the handlers that change them as pure transitions. Each handler
 runs as one atomic step; what the main process does with a file (reading,
 writing, dialogs) arrives as a parameter or leaves as an effect.
 */
module App {
  import opened Wrappers
  import opened JsText
  import opened Dates
  import opened Entries

  datatype AppState = AppState(file: Option<string>, entries: seq<Entry>)

  /** What a handler asks of the outside world. */
  datatype Effect =
    | NoEffect
    | Alert                        // asks the user to choose a file first
    | Save(entries: seq<Entry>)    // the whole list, overwriting the file

  datatype Step = Step(state: AppState, effect: Effect)

  /** The reply of the main process to `init`, `chooseFile` or `createFile`. */
  datatype FileReply = FileReply(filePath: Option<string>, entries: seq<RawEntry>)

  /** `if (path)` on a path: a missing path and the empty string are both falsy. */
  predicate HasPath(path: Option<string>) {
    path.Some? && path.value != ""
  }

  /** The state every handler leaves behind: the entry list is sanitised. */
  predicate Invariant(s: AppState) {
    AllValid(s.entries)
  }

  /** The guard of `addEntry` after a file is known: minutes truthy and positive, a known type. */
  predicate Accepts(kind: string, minutes: JsNumber) {
    Truthy(minutes) && minutes.value > 0 && (kind == "hard" || kind == "moderate")
  }

  /** The record `addEntry` pushes: today's key, the type, `Number(minutes)`. */
  function NewRecord(today: int, kind: string, minutes: int): RawEntry {
    RawEntry(Str(Ymd(today)), Str(kind), Num(minutes))
  }

  /**
   `addEntry(type, minutes)` on the day `today`: alert when no file is
   chosen; ignore falsy or non-positive minutes and unknown types; otherwise
   push one record, sanitise, and save the whole list.
   */
  function AddEntry(s: AppState, today: int, kind: string, minutes: JsNumber): (r: Step)
    ensures !HasPath(s.file) ==> r == Step(s, Alert)
    ensures HasPath(s.file) && !Accepts(kind, minutes) ==> r == Step(s, NoEffect)
    ensures HasPath(s.file) && Accepts(kind, minutes) ==>
      && r.state.file == s.file
      && r.effect == Save(r.state.entries)
      && Invariant(r.state)
    ensures HasPath(s.file) && Accepts(kind, minutes) && Invariant(s) ==>
      r.state.entries == s.entries + [Entry(Ymd(today), if kind == "hard" then Hard else Moderate, minutes.value)]
  {
    if !HasPath(s.file) then Step(s, Alert)
    else if !Accepts(kind, minutes) then Step(s, NoEffect)
    else
      var entries := Sanitize(Stored(s.entries) + [NewRecord(today, kind, minutes.value)]);
      AddAppends(s.entries, today, kind, minutes.value);
      Step(AppState(s.file, entries), Save(entries))
  }

  /** Sanitising after the push removes nothing valid and keeps exactly the one new entry. */
  lemma AddAppends(es: seq<Entry>, today: int, kind: string, minutes: int)
    requires minutes > 0 && (kind == "hard" || kind == "moderate")
    ensures AllValid(es) ==>
      Sanitize(Stored(es) + [NewRecord(today, kind, minutes)])
      == es + [Entry(Ymd(today), if kind == "hard" then Hard else Moderate, minutes)]
  {
    if AllValid(es) {
      var rec := NewRecord(today, kind, minutes);
      SanitizeAppend(Stored(es), [rec]);
      SanitizeValidIsIdentity(es);
      YmdNotEmpty(today);
      SanitizeOne(rec);
      assert Coerce(rec) == Entry(Ymd(today), if kind == "hard" then Hard else Moderate, minutes);
    }
  }

  /**
   `chooseFile`, `initApp` and `reloadFile` once the reply is in: a reply
   with a path replaces the file and the sanitised list; a reply without one
   changes nothing.
   */
  function OpenFile(s: AppState, reply: FileReply): (r: AppState)
    ensures !HasPath(reply.filePath) ==> r == s
    ensures HasPath(reply.filePath) ==> r.file == reply.filePath && r.entries == Sanitize(reply.entries)
    ensures HasPath(reply.filePath) ==> Invariant(r)
    ensures Invariant(s) ==> Invariant(r)
  {
    if HasPath(reply.filePath) then AppState(reply.filePath, Sanitize(reply.entries)) else s
  }

  /** `createNewFile`: a new file starts with an empty list. */
  function CreateFile(s: AppState, reply: FileReply): (r: AppState)
    ensures !HasPath(reply.filePath) ==> r == s
    ensures HasPath(reply.filePath) ==> r.file == reply.filePath && r.entries == []
    ensures Invariant(s) ==> Invariant(r)
  {
    if HasPath(reply.filePath) then AppState(reply.filePath, []) else s
  }

  /** `reloadFile`: does nothing without a current file; otherwise opens the reply. */
  function ReloadFile(s: AppState, reply: FileReply): (r: AppState)
    ensures !HasPath(s.file) || !HasPath(reply.filePath) ==> r == s
    ensures HasPath(s.file) && HasPath(reply.filePath) ==>
      r.file == reply.filePath && r.entries == Sanitize(reply.entries)
    ensures HasPath(s.file) && HasPath(reply.filePath) ==> Invariant(r)
    ensures Invariant(s) ==> Invariant(r)
  {
    if !HasPath(s.file) then s else OpenFile(s, reply)
  }

  /** Every handler keeps the entry list sanitised. */
  lemma HandlersKeepInvariant(s: AppState, reply: FileReply, today: int, kind: string, minutes: JsNumber)
    requires Invariant(s)
    ensures Invariant(OpenFile(s, reply))
    ensures Invariant(CreateFile(s, reply))
    ensures Invariant(ReloadFile(s, reply))
    ensures Invariant(AddEntry(s, today, kind, minutes).state)
  {
  }

  /** An entry added on a day from year 100 on carries a canonical date key. */
  lemma AddedDateIsCanonical(s: AppState, today: int, kind: string, minutes: JsNumber)
    requires Invariant(s) && HasPath(s.file) && Accepts(kind, minutes)
    requires Year(today) >= 100
    ensures var es := AddEntry(s, today, kind, minutes).state.entries;
      |es| == |s.entries| + 1 && Canonical(es[|es| - 1].date)
  {
    YmdIsCanonical(today);
  }
}

=== FILE: calendar.dfy ===
/**
 The proleptic Gregorian calendar that JavaScript's `Date` uses, with each
 calendar date identified by an integer day number. Day 0 is 0001-01-01, a
 Monday. Hours, time zones and daylight saving time are not modelled: a
 `Date` in the renderer is always a local midnight, so it is one day number.
 */
module Calendar {

  /** A calendar date as `getFullYear`, `getMonth() + 1` and `getDate` report it. */
  datatype CivilDate = CivilDate(year: int, month: int, day: int)

  predicate IsLeapYear(y: int) {
    y % 4 == 0 && (y % 100 != 0 || y % 400 == 0)
  }

  function DaysInYear(y: int): int {
    if IsLeapYear(y) then 366 else 365
  }

  function DaysInMonth(y: int, m: int): (n: int)
    requires 1 <= m <= 12
    ensures 28 <= n <= 31
  {
    if m == 2 then (if IsLeapYear(y) then 29 else 28)
    else if m == 4 || m == 6 || m == 9 || m == 11 then 30
    else 31
  }

  /** A date that exists: a month from 1 to 12 and a day inside that month. */
  predicate Valid(c: CivilDate) {
    1 <= c.month <= 12 && 1 <= c.day <= DaysInMonth(c.year, c.month)
  }

  /** Days from 0001-01-01 to the first of January of year `y` (negative before year 1). */
  function DaysBeforeYear(y: int): int {
    var p := y - 1;
    365 * p + p / 4 - p / 100 + p / 400
  }

  /** Days from the first of January of year `y` to the first day of month `m`. */
  function DaysBeforeMonth(y: int, m: int): int
    requires 1 <= m <= 12
  {
    [0, 31, 59, 90, 120, 151, 181, 212, 243, 273, 304, 334][m - 1]
    + (if m > 2 && IsLeapYear(y) then 1 else 0)
  }

  /**
   The day arithmetic of `new Date(y, mi, d)` (MakeDay in ECMAScript): the
   month index `mi` is 0-based and may run past either end of the year, and
   the day `d` may run past either end of the month; both carry over.
   */
  function MakeDay(y: int, mi: int, d: int): int {
    var ym := y + mi / 12;
    var mn := mi % 12;
    DaysBeforeYear(ym) + DaysBeforeMonth(ym, mn + 1) + d - 1
  }

  /** The day number of a calendar date. */
  function DayNumber(c: CivilDate): int {
    MakeDay(c.year, c.month - 1, c.day)
  }

  /** `getDay()`: 0 for Sunday, 1 for Monday, ..., 6 for Saturday. */
  function GetDay(n: int): (w: int)
    ensures 0 <= w < 7
  {
    (n + 1) % 7
  }

  /** Floor division by `k` goes up by one exactly when `p + 1` is a multiple of `k`. */
  lemma DivStep(p: int, k: int)
    requires k == 4 || k == 100 || k == 400
    ensures (p + 1) / k == p / k + (if (p + 1) % k == 0 then 1 else 0)
  {
    var q, r := p / k, p % k;
    assert p == k * q + r;
    if r == k - 1 {
      assert p + 1 == k * (q + 1);
    } else {
      assert p + 1 == k * q + (r + 1);
    }
  }

  lemma YearStep(y: int)
    ensures DaysBeforeYear(y + 1) == DaysBeforeYear(y) + DaysInYear(y)
  {
    var p := y - 1;
    DivStep(p, 4);
    DivStep(p, 100);
    DivStep(p, 400);
    var a, b, c := (if y % 4 == 0 then 1 else 0), (if y % 100 == 0 then 1 else 0), (if y % 400 == 0 then 1 else 0);
    assert DaysBeforeYear(y + 1) - DaysBeforeYear(y) == 365 + a - b + c;
    DivisorsOfLeap(y);
  }

  /** A multiple of 400 is a multiple of 100, and a multiple of 100 a multiple of 4. */
  lemma DivisorsOfLeap(y: int)
    ensures y % 400 == 0 ==> y % 100 == 0
    ensures y % 100 == 0 ==> y % 4 == 0
  {
    var q400, q100 := y / 400, y / 100;
    if y % 400 == 0 {
      assert y == 100 * (4 * q400) + 0;
    }
    if y % 100 == 0 {
      assert y == 4 * (25 * q100) + 0;
    }
  }

  lemma MonthStep(y: int, m: int)
    requires 1 <= m <= 12
    ensures m < 12 ==> DaysBeforeMonth(y, m + 1) == DaysBeforeMonth(y, m) + DaysInMonth(y, m)
    ensures m == 12 ==> DaysBeforeMonth(y, m) + DaysInMonth(y, m) == DaysInYear(y)
  {
  }

  /** `new Date(y, mi, d)` carries months over: twelve months more is a year more. */
  lemma MonthCarry(y: int, mi: int, d: int)
    ensures MakeDay(y, mi + 12, d) == MakeDay(y + 1, mi, d)
  {
    var q, r := mi / 12, mi % 12;
    assert mi + 12 == 12 * (q + 1) + r;
    assert (mi + 12) / 12 == q + 1 && (mi + 12) % 12 == r;
  }

  /**
   `new Date(y, mi, d)` carries days over: one day more is the next day, and
   the day after the last of a month is the first of the next month (of the
   next year after December).
   */
  lemma DayCarry(y: int, mi: int, d: int)
    ensures MakeDay(y, mi, d + 1) == MakeDay(y, mi, d) + 1
    ensures 0 <= mi <= 11 ==> MakeDay(y, mi, DaysInMonth(y, mi + 1) + 1) == MakeDay(y, mi + 1, 1)
  {
    if 0 <= mi <= 11 {
      var m := mi + 1;
      var last := DaysInMonth(y, m);
      assert mi / 12 == 0 && mi % 12 == mi;
      assert MakeDay(y, mi, last + 1) == DaysBeforeYear(y) + DaysBeforeMonth(y, m) + last;
      MonthStep(y, m);
      if m < 12 {
        assert m / 12 == 0 && m % 12 == m;
        assert MakeDay(y, m, 1) == DaysBeforeYear(y) + DaysBeforeMonth(y, m + 1);
      } else {
        assert m / 12 == 1 && m % 12 == 0;
        assert MakeDay(y, m, 1) == DaysBeforeYear(y + 1) + DaysBeforeMonth(y + 1, 1);
        YearStep(y);
      }
    }
  }

  /** Every 400 years hold exactly 146097 days. */
  lemma CycleStart(q: int)
    ensures DaysBeforeYear(400 * q + 1) == 146097 * q
  {
    var p := 400 * q;
    assert p / 4 == 100 * q;
    assert p / 100 == 4 * q;
    assert p / 400 == q;
  }

  /** The date `r` days (0-based) after the first of January of year `y`, stepping a year at a time. */
  function CivilAfter(r: nat, y: int): (c: CivilDate)
    ensures 1 <= c.month <= 12
    decreases r
  {
    if r < DaysInYear(y) then
      var m := FindMonth(y, r, 1);
      CivilDate(y, m, r - DaysBeforeMonth(y, m) + 1)
    else CivilAfter(r - DaysInYear(y), y + 1)
  }

  /** The month that holds day `doy` (0-based) of year `y`, searching from month `m`. */
  function FindMonth(y: int, doy: int, m: int): (res: int)
    requires 1 <= m <= 12
    ensures m <= res <= 12
    decreases 12 - m
  {
    if m == 12 || doy < DaysBeforeMonth(y, m + 1) then m else FindMonth(y, doy, m + 1)
  }

  /**
   The calendar date of a day number (what `getFullYear`, `getMonth` and
   `getDate` read off a `Date`); ToCivilCorrect states what it computes.
   */
  function ToCivil(n: int): (c: CivilDate)
    ensures 1 <= c.month <= 12
  {
    var q := n / 146097;
    CivilAfter(n - 146097 * q, 400 * q + 1)
  }

  lemma {:induction false} FindMonthCorrect(y: int, doy: int, m: int)
    requires 1 <= m <= 12
    requires DaysBeforeMonth(y, m) <= doy < DaysInYear(y)
    ensures var res := FindMonth(y, doy, m);
      DaysBeforeMonth(y, res) <= doy < DaysBeforeMonth(y, res) + DaysInMonth(y, res)
    decreases 12 - m
  {
    MonthStep(y, m);
    if m < 12 && doy >= DaysBeforeMonth(y, m + 1) {
      FindMonthCorrect(y, doy, m + 1);
    }
  }

  lemma {:induction false} CivilAfterCorrect(r: nat, y: int)
    ensures Valid(CivilAfter(r, y))
    ensures DayNumber(CivilAfter(r, y)) == DaysBeforeYear(y) + r
    decreases r
  {
    if r < DaysInYear(y) {
      FindMonthCorrect(y, r, 1);
      DayNumberOfValid(CivilAfter(r, y));
    } else {
      YearStep(y);
      CivilAfterCorrect(r - DaysInYear(y), y + 1);
    }
  }

  /** ToCivil gives a date that exists and has the given day number. */
  lemma ToCivilCorrect(n: int)
    ensures Valid(ToCivil(n))
    ensures DayNumber(ToCivil(n)) == n
  {
    var q := n / 146097;
    var r, y := n - 146097 * q, 400 * q + 1;
    assert 0 <= r;
    assert ToCivil(n) == CivilAfter(r, y);
    CycleStart(q);
    CivilAfterCorrect(r, y);
  }

  lemma {:induction false} YearsAreOrdered(a: int, b: int)
    requires a < b
    ensures DaysBeforeYear(a) + DaysInYear(a) <= DaysBeforeYear(b)
    decreases b - a
  {
    YearStep(a);
    if a + 1 < b {
      YearsAreOrdered(a + 1, b);
    }
  }

  lemma {:induction false} MonthsAreOrdered(y: int, a: int, b: int)
    requires 1 <= a < b <= 12
    ensures DaysBeforeMonth(y, a) + DaysInMonth(y, a) <= DaysBeforeMonth(y, b)
    decreases b - a
  {
    MonthStep(y, a);
    if a + 1 < b {
      MonthsAreOrdered(y, a + 1, b);
    }
  }

  /** For a valid date, MakeDay needs no carrying. */
  lemma DayNumberOfValid(c: CivilDate)
    requires Valid(c)
    ensures DayNumber(c) == DaysBeforeYear(c.year) + DaysBeforeMonth(c.year, c.month) + c.day - 1
  {
    assert (c.month - 1) / 12 == 0 && (c.month - 1) % 12 == c.month - 1;
  }

  /** A valid date's day number lies inside its own year. */
  lemma DayWithinYear(c: CivilDate)
    requires Valid(c)
    ensures DaysBeforeYear(c.year) <= DayNumber(c) < DaysBeforeYear(c.year) + DaysInYear(c.year)
  {
    DayNumberOfValid(c);
    MonthStep(c.year, 12);
    if c.month < 12 {
      MonthsAreOrdered(c.year, c.month, 12);
    }
  }

  /** The same month and day 1900 years later has a larger day number. */
  lemma CenturyLater(c: CivilDate)
    requires Valid(c)
    ensures DayNumber(c) < DayNumber(CivilDate(c.year + 1900, c.month, c.day))
  {
    var later := CivilDate(c.year + 1900, c.month, c.day);
    assert DayNumber(later) >= DaysBeforeYear(later.year) by {
      assert (c.month - 1) / 12 == 0 && (c.month - 1) % 12 == c.month - 1;
    }
    DayWithinYear(c);
    YearsAreOrdered(c.year, later.year);
  }

  lemma SameDayNumberSameYear(a: CivilDate, b: CivilDate)
    requires Valid(a) && Valid(b)
    requires DayNumber(a) == DayNumber(b)
    ensures a.year == b.year
  {
    DayWithinYear(a);
    DayWithinYear(b);
    if a.year < b.year {
      YearsAreOrdered(a.year, b.year);
    } else if b.year < a.year {
      YearsAreOrdered(b.year, a.year);
    }
  }

  /** Distinct valid dates have distinct day numbers. */
  lemma DayNumberInjective(a: CivilDate, b: CivilDate)
    requires Valid(a) && Valid(b)
    requires DayNumber(a) == DayNumber(b)
    ensures a == b
  {
    SameDayNumberSameYear(a, b);
    DayNumberOfValid(a);
    DayNumberOfValid(b);
    var y := a.year;
    if a.month < b.month {
      MonthsAreOrdered(y, a.month, b.month);
    } else if b.month < a.month {
      MonthsAreOrdered(y, b.month, a.month);
    }
  }

  /** Reading a valid date's day number back gives the same date. */
  lemma ToCivilOfDayNumber(c: CivilDate)
    requires Valid(c)
    ensures ToCivil(DayNumber(c)) == c
  {
    ToCivilCorrect(DayNumber(c));
    DayNumberInjective(ToCivil(DayNumber(c)), c);
  }

  /** The calendar is anchored correctly: 1970-01-01 was a Thursday. */
  lemma EpochIsThursday()
    ensures GetDay(DayNumber(CivilDate(1970, 1, 1))) == 4
  {
    assert DaysBeforeYear(1970) == 719162;
    assert DayNumber(CivilDate(1970, 1, 1)) == 719162;
  }
}

=== FILE: dates.dfy ===
/**
 The date helpers at the top of renderer.js: the `ymd` key format, its
 reader `parseDate`, and the Monday-first week buckets `startOfWeek` and
 `isInSameWeek`. A `Date` is a day number (see Calendar); an Invalid Date
 is `None`.
 */
module Dates {
  import opened Wrappers
  import opened JsText
  import opened Calendar

  /** `ymd(date)`: the year as plain decimal text, then month and day padded to two digits. */
  function Ymd(n: int): string {
    var c := ToCivil(n);
    IntText(c.year) + "-" + Pad2(c.month) + "-" + Pad2(c.day)
  }

  /** `getFullYear()` of a day number. */
  function Year(n: int): int {
    ToCivil(n).year
  }

  /** The i-th `-`-separated field run through `Number`, or `undefined` (`None`) past the end. */
  function Field(parts: seq<string>, i: nat): Option<JsNumber> {
    if i < |parts| then Some(NumberOf(parts[i])) else None
  }

  /** `x || 1`: undefined, NaN and 0 all become 1. */
  function OrOne(x: Option<JsNumber>): (v: int)
    ensures v != 0
    ensures x.Some? && Truthy(x.value) ==> v == x.value.value
    ensures !(x.Some? && Truthy(x.value)) ==> v == 1
  {
    if x.Some? && Truthy(x.value) then x.value.value else 1
  }

  /**
   `new Date(y, mi, d)`: NaN as the year gives an Invalid Date; a year from 0
   to 99 means 1900 to 1999; month and day carry over as in MakeDay.
   */
  function NewDate(y: JsNumber, mi: int, d: int): Option<int> {
    match y
    case NaN => None
    case Finite(v) => Some(MakeDay(if 0 <= v <= 99 then 1900 + v else v, mi, d))
  }

  /** `parseDate(dateStr)`: split on `-`, missing, zero or non-numeric month and day become 1. */
  function ParseDate(s: string): Option<int> {
    var parts := Split(s, '-');
    NewDate(NumberOf(parts[0]), OrOne(Field(parts, 1)) - 1, OrOne(Field(parts, 2)))
  }

  /** `(getDay() + 6) % 7`: the position of a day in a Monday-first week. */
  function WeekdayIndex(n: int): (i: int)
    ensures 0 <= i < 7
  {
    (GetDay(n) + 6) % 7
  }

  predicate IsMonday(n: int) {
    GetDay(n) == 1
  }

  /** `startOfWeek(d)`: the Monday of the week holding `d`. */
  function StartOfWeek(n: int): (m: int)
    ensures IsMonday(m)
    ensures m <= n <= m + 6
  {
    n - WeekdayIndex(n)
  }

  /** Two days share a Monday-first week. */
  predicate SameWeek(a: int, b: int) {
    StartOfWeek(a) == StartOfWeek(b)
  }

  /**
   `isInSameWeek(dateStr, refDate)`. An Invalid Date has time NaN, and
   NaN === NaN is false, so an unparsable string is in no week.
   */
  predicate IsInSameWeek(ds: string, ref: int) {
    match ParseDate(ds)
    case None => false
    case Some(d) => SameWeek(d, ref)
  }

  /** A date string exactly as `ymd` writes the day it denotes. */
  predicate Canonical(ds: string) {
    match ParseDate(ds)
    case None => false
    case Some(d) => Ymd(d) == ds
  }

  /* ---------------------------- the ymd / parseDate codec ---------------------------- */

  lemma MonthAndDayDigits(c: CivilDate)
    requires Valid(c)
    ensures |Pad2(c.month)| == 2 && AllDigits(Pad2(c.month)) && DigitsValue(Pad2(c.month)) == c.month
    ensures |Pad2(c.day)| == 2 && AllDigits(Pad2(c.day)) && DigitsValue(Pad2(c.day)) == c.day
  {
    Pad2Digits(c.month);
    Pad2Digits(c.day);
  }

  /** The shape of a key built from year text `yt` and two-digit month and day fields. */
  lemma KeyFields(yt: string, mt: string, dt: string)
    requires |mt| == 2 && |dt| == 2
    ensures var s := yt + "-" + mt + "-" + dt;
      && |s| == |yt| + 6
      && s[..|yt|] == yt && s[|yt|] == '-' && s[|yt| + 1..|yt| + 3] == mt
      && s[|yt| + 3] == '-' && s[|yt| + 4..] == dt
  {
  }

  /**
   Only a NaN year gives an Invalid Date. A year from 0 to 99 means the same
   as that year plus 1900; other years mean themselves.
   */
  lemma TwoDigitYears(y: JsNumber, v: int, mi: int, d: int)
    ensures NewDate(y, mi, d).None? <==> y.NaN?
    ensures 0 <= v <= 99 ==> NewDate(Finite(v), mi, d) == NewDate(Finite(v + 1900), mi, d)
    ensures !(0 <= v <= 99) ==> NewDate(Finite(v), mi, d) == Some(MakeDay(v, mi, d))
  {
  }

  /** The key `ymd` writes is never empty. */
  lemma YmdNotEmpty(n: int)
    ensures Ymd(n) != ""
  {
    assert |Ymd(n)| >= 1;
  }

  /** Whatever the year, a key ends in `-DD`: the third character from the end is a dash. */
  lemma YmdEndsWithDay(n: int)
    ensures |Ymd(n)| >= 6 && Ymd(n)[|Ymd(n)| - 3] == '-'
  {
    var c := ToCivil(n);
    ToCivilCorrect(n);
    MonthAndDayDigits(c);
    KeyFields(IntText(c.year), Pad2(c.month), Pad2(c.day));
  }

  /** So a string whose third character from the end is not a dash is no key. */
  lemma NotAKey(s: string, n: int)
    requires |s| >= 3 && s[|s| - 3] != '-'
    ensures Ymd(n) != s
  {
    YmdEndsWithDay(n);
  }

  /** For a four-digit year, `ymd` gives exactly `YYYY-MM-DD`, and each field reads back. */
  lemma YmdFormat(n: int)
    requires 1000 <= Year(n) <= 9999
    ensures var s, c := Ymd(n), ToCivil(n);
      && |s| == 10 && s[4] == '-' && s[7] == '-'
      && AllDigits(s[..4]) && AllDigits(s[5..7]) && AllDigits(s[8..])
      && DigitsValue(s[..4]) == c.year
      && DigitsValue(s[5..7]) == c.month
      && DigitsValue(s[8..]) == c.day
  {
    var c := ToCivil(n);
    ToCivilCorrect(n);
    MonthAndDayDigits(c);
    NatTextLength(c.year, 3);
    DigitsValueOfNatText(c.year);
    KeyFields(IntText(c.year), Pad2(c.month), Pad2(c.day));
  }

  /** Different days get different keys, so keys can be compared as dates. */
  lemma YmdInjective(a: int, b: int)
    requires Ymd(a) == Ymd(b)
    ensures a == b
  {
    var ca, cb := ToCivil(a), ToCivil(b);
    ToCivilCorrect(a);
    ToCivilCorrect(b);
    MonthAndDayDigits(ca);
    MonthAndDayDigits(cb);
    KeyFields(IntText(ca.year), Pad2(ca.month), Pad2(ca.day));
    KeyFields(IntText(cb.year), Pad2(cb.month), Pad2(cb.day));
    IntTextInjective(ca.year, cb.year);
    Pad2Injective(ca.month, cb.month);
    Pad2Injective(ca.day, cb.day);
  }

  /** Two keys are equal exactly when the days are. */
  lemma YmdEqualIff(a: int, b: int)
    ensures Ymd(a) == Ymd(b) <==> a == b
  {
    if Ymd(a) == Ymd(b) {
      YmdInjective(a, b);
    }
  }

  lemma DigitsHaveNoDash(s: string)
    requires AllDigits(s)
    ensures '-' !in s
  {
  }

  /** A date written as `Y-M-D` from digit strings splits into exactly those three fields. */
  lemma SplitThreeFields(y: string, m: string, d: string)
    requires AllDigits(y) && AllDigits(m) && AllDigits(d)
    ensures Split(y + "-" + m + "-" + d, '-') == [y, m, d]
  {
    DigitsHaveNoDash(y);
    DigitsHaveNoDash(m);
    DigitsHaveNoDash(d);
    assert y + "-" + m + "-" + d == y + ['-'] + (m + ['-'] + d);
    SplitAtSeparator(y, '-', m + ['-'] + d);
    SplitAtSeparator(m, '-', d);
    SplitNoSeparator(d, '-');
  }

  /** `parseDate(ymd(d))` is `d` again, for every year from 100 on. */
  lemma ParseYmd(n: int)
    requires Year(n) >= 100
    ensures ParseDate(Ymd(n)) == Some(n)
  {
    var c := ToCivil(n);
    ToCivilCorrect(n);
    var ys, ms, ds := NatText(c.year), Pad2(c.month), Pad2(c.day);
    assert Ymd(n) == ys + "-" + ms + "-" + ds;
    assert ParseDate(ys + "-" + ms + "-" + ds) == NewDate(Finite(c.year), c.month - 1, c.day) by {
      MonthAndDayDigits(c);
      NumberOfNatText(c.year);
      ParseThreeFields(ys, ms, ds);
    }
    assert NewDate(Finite(c.year), c.month - 1, c.day) == Some(DayNumber(c));
  }

  /** The keys `ymd` writes (from year 100 on) are canonical. */
  lemma YmdIsCanonical(n: int)
    requires Year(n) >= 100
    ensures Canonical(Ymd(n))
  {
    ParseYmd(n);
  }

  /** A missing month and day are read as January and the 1st. */
  lemma ParseYearOnly(y: nat)
    requires y >= 100
    ensures ParseDate(NatText(y)) == Some(DayNumber(CivilDate(y, 1, 1)))
  {
    SplitNoSeparator(NatText(y), '-');
    DigitsHaveNoDash(NatText(y));
    NumberOfNatText(y);
  }

  /** A date written as three digit fields is read field by field. */
  lemma ParseThreeFields(y: string, m: string, d: string)
    requires AllDigits(y) && AllDigits(m) && AllDigits(d)
    ensures ParseDate(y + "-" + m + "-" + d)
         == NewDate(NumberOf(y), OrOne(Some(NumberOf(m))) - 1, OrOne(Some(NumberOf(d))))
  {
    SplitThreeFields(y, m, d);
  }

  /** A date written as two digit fields has its day defaulted. */
  lemma ParseTwoFields(y: string, m: string)
    requires AllDigits(y) && AllDigits(m)
    ensures ParseDate(y + "-" + m) == NewDate(NumberOf(y), OrOne(Some(NumberOf(m))) - 1, 1)
  {
    DigitsHaveNoDash(y);
    DigitsHaveNoDash(m);
    SplitAtSeparator(y, '-', m);
    SplitNoSeparator(m, '-');
  }

  /** A missing day, or an empty one after a trailing `-`, is read as the 1st. */
  lemma ParseYearMonth(y: nat, m: int)
    requires y >= 100 && 1 <= m <= 12
    ensures ParseDate(NatText(y) + "-" + Pad2(m)) == Some(DayNumber(CivilDate(y, m, 1)))
    ensures ParseDate(NatText(y) + "-" + Pad2(m) + "-") == Some(DayNumber(CivilDate(y, m, 1)))
  {
    var ys, ms := NatText(y), Pad2(m);
    NumberOfNatText(y);
    Pad2Digits(m);
    assert NewDate(NumberOf(ys), OrOne(Some(NumberOf(ms))) - 1, 1) == Some(DayNumber(CivilDate(y, m, 1))) by {
      assert NumberOf(ms) == Finite(m);
      assert OrOne(Some(NumberOf(ms))) == m;
    }
    ParseTwoFields(ys, ms);
    assert ys + "-" + ms + "-" + "" == ys + "-" + ms + "-";
    ParseThreeFields(ys, ms, "");
  }

  /** A zero month or day (`00`) is read as 1 as well, since 0 is falsy. */
  lemma ParseZeroFields(y: nat)
    requires y >= 100
    ensures ParseDate(NatText(y) + "-" + "00" + "-" + "00") == Some(DayNumber(CivilDate(y, 1, 1)))
  {
    var ys, zs := NatText(y), ['0', '0'];
    NumberOfNatText(y);
    ShortDigitsValue('0', '0');
    assert NumberOf(zs) == Finite(0);
    assert OrOne(Some(NumberOf(zs))) == 1;
    ParseThreeFields(ys, zs, zs);
    assert zs == "00";
  }

  /** Unpadded one-digit month and day fields are read too, as in `2024-1-1`. */
  lemma UnpaddedFields(y: nat, m: nat, d: nat)
    requires y >= 100 && 1 <= m <= 9 && 1 <= d <= DaysInMonth(y, m)
    requires d <= 9
    ensures ParseDate(NatText(y) + "-" + [DigitChar(m)] + "-" + [DigitChar(d)]) == Some(DayNumber(CivilDate(y, m, d)))
  {
    var ys, ms, ds := NatText(y), [DigitChar(m)], [DigitChar(d)];
    NumberOfNatText(y);
    ShortDigitsValue(DigitChar(m), DigitChar(m));
    ShortDigitsValue(DigitChar(d), DigitChar(d));
    assert NumberOf(ms) == Finite(m) && NumberOf(ds) == Finite(d);
    ParseThreeFields(ys, ms, ds);
  }

  /**
   Below year 100 the round trip fails: `ymd` writes the year without
   padding, and `new Date` reads a year from 0 to 99 as 1900 plus that year,
   so the key of a day in year 50 is read as a day in 1950.
   */
  lemma SmallYearIsShifted(n: int)
    requires 1 <= Year(n) <= 99
    ensures var c := ToCivil(n);
      ParseDate(Ymd(n)) == Some(DayNumber(CivilDate(c.year + 1900, c.month, c.day)))
    ensures ParseDate(Ymd(n)) != Some(n)
  {
    var c := ToCivil(n);
    ToCivilCorrect(n);
    var ys, ms, ds := NatText(c.year), Pad2(c.month), Pad2(c.day);
    assert Ymd(n) == ys + "-" + ms + "-" + ds;
    assert ParseDate(ys + "-" + ms + "-" + ds) == NewDate(Finite(c.year), c.month - 1, c.day) by {
      MonthAndDayDigits(c);
      NumberOfNatText(c.year);
      ParseThreeFields(ys, ms, ds);
    }
    assert NewDate(Finite(c.year), c.month - 1, c.day) == Some(DayNumber(CivilDate(c.year + 1900, c.month, c.day)));
    CenturyLater(c);
  }

  /* ---------------------------- Monday-first weeks ---------------------------- */

  /** Every day of the block starting on a Monday maps back to that Monday. */
  lemma MondayBlock(m: int, k: int)
    requires IsMonday(m) && 0 <= k <= 6
    ensures StartOfWeek(m + k) == m
  {
  }

  lemma StartOfWeekIdempotent(n: int)
    ensures StartOfWeek(StartOfWeek(n)) == StartOfWeek(n)
  {
    MondayBlock(StartOfWeek(n), 0);
  }

  /** The week classes are exactly the seven-day blocks from a Monday to the next Sunday. */
  lemma SameWeekIffBlock(a: int, b: int)
    ensures SameWeek(a, b) <==> StartOfWeek(a) <= b <= StartOfWeek(a) + 6
  {
    var m := StartOfWeek(a);
    if m <= b <= m + 6 {
      MondayBlock(m, b - m);
    }
  }

  lemma SameWeekIsEquivalence(a: int, b: int, c: int)
    ensures SameWeek(a, a)
    ensures SameWeek(a, b) ==> SameWeek(b, a)
    ensures SameWeek(a, b) && SameWeek(b, c) ==> SameWeek(a, c)
  {
  }

  /** Days seven or more apart are never in the same week. */
  lemma FarApartNotSameWeek(a: int, b: int)
    requires a + 7 <= b || b + 7 <= a
    ensures !SameWeek(a, b)
  {
  }

  /** Going back `w` whole weeks moves the Monday back by exactly `7 * w` days. */
  lemma StartOfWeekShift(n: int, w: int)
    ensures StartOfWeek(n - 7 * w) == StartOfWeek(n) - 7 * w
  {
    var m := StartOfWeek(n);
    assert GetDay(m - 7 * w) == GetDay(m);
    MondayBlock(m - 7 * w, n - m);
  }

  /** For a key `ymd` wrote, `isInSameWeek` is exactly the week relation on days. */
  lemma IsInSameWeekOfYmd(x: int, ref: int)
    requires Year(x) >= 100
    ensures IsInSameWeek(Ymd(x), ref) <==> SameWeek(x, ref)
  {
    ParseYmd(x);
  }
}

=== FILE: entries.dfy ===
/**
 The in-memory entry list and `sanitizeEntries`, which coerces every record
 loaded from the file and then filters the list.
 */
module Entries {
  import opened JsText

  /** A JSON field value of a loaded record; a missing field is `Undefined`. */
  datatype JsonValue = Undefined | Null | Bool(b: bool) | Num(n: int) | Str(s: string) {

    /** JavaScript truthiness: undefined, null, false, 0 and "" are falsy. */
    predicate Truthy() {
      match this
      case Undefined => false
      case Null => false
      case Bool(b) => b
      case Num(n) => n != 0
      case Str(s) => s != ""
    }

    /** `String(v)`. */
    function ToText(): string {
      match this
      case Undefined => "undefined"
      case Null => "null"
      case Bool(b) => if b then "true" else "false"
      case Num(n) => IntText(n)
      case Str(s) => s
    }

    /** `Number(v)`. */
    function ToNumber(): JsNumber {
      match this
      case Undefined => NaN
      case Null => Finite(0)
      case Bool(b) => Finite(if b then 1 else 0)
      case Num(n) => Finite(n)
      case Str(s) => NumberOf(s)
    }
  }

  /** A record as read from the file, before sanitising. */
  datatype RawEntry = RawEntry(date: JsonValue, kind: JsonValue, minutes: JsonValue)

  datatype Intensity = Hard | Moderate

  /** A record after sanitising: `{date, type, minutes}`. */
  datatype Entry = Entry(date: string, kind: Intensity, minutes: int)

  /** The `type` string an intensity is stored under. */
  function IntensityName(k: Intensity): string {
    match k
    case Hard => "hard"
    case Moderate => "moderate"
  }

  /** An entry the filter of `sanitizeEntries` keeps: a non-empty date and positive minutes. */
  predicate ValidEntry(e: Entry) {
    e.date != "" && e.minutes > 0
  }

  predicate AllValid(es: seq<Entry>) {
    forall i :: 0 <= i < |es| ==> ValidEntry(es[i])
  }

  /** `String(e.date || '')`. */
  function DateText(v: JsonValue): (s: string)
    ensures s == "" <==> !v.Truthy()
  {
    if v.Truthy() then v.ToText() else ""
  }

  /** `e.type === 'hard' ? 'hard' : 'moderate'`. */
  function IntensityOf(v: JsonValue): (k: Intensity)
    ensures k == Hard <==> v == Str("hard")
  {
    if v == Str("hard") then Hard else Moderate
  }

  /** `Number(e.minutes) || 0`: NaN becomes 0. */
  function MinutesOf(v: JsonValue): (m: int)
    ensures v.ToNumber().Finite? ==> m == v.ToNumber().value
    ensures v.ToNumber() == NaN ==> m == 0
  {
    var x := v.ToNumber();
    if Truthy(x) then x.value else 0
  }

  /** The `map` step of `sanitizeEntries`. */
  function Coerce(r: RawEntry): Entry {
    Entry(DateText(r.date), IntensityOf(r.kind), MinutesOf(r.minutes))
  }

  /**
   `sanitizeEntries()`: coerce every record, then keep those with a date and
   positive minutes. The source also tests that the type is hard or moderate,
   but after coercion it always is, so that test removes nothing.
   */
  function Sanitize(raw: seq<RawEntry>): (r: seq<Entry>)
    ensures |r| <= |raw|
    ensures AllValid(r)
  {
    if raw == [] then []
    else
      var e := Coerce(raw[0]);
      (if ValidEntry(e) then [e] else []) + Sanitize(raw[1..])
  }

  /** How an entry is stored: `JSON.stringify` of `{date, type, minutes}`, read back. */
  function ToRaw(e: Entry): RawEntry {
    RawEntry(Str(e.date), Str(IntensityName(e.kind)), Num(e.minutes))
  }

  function Stored(es: seq<Entry>): (r: seq<RawEntry>)
    ensures |r| == |es|
    ensures forall i :: 0 <= i < |es| ==> r[i] == ToRaw(es[i])
  {
    if es == [] then [] else [ToRaw(es[0])] + Stored(es[1..])
  }

  /** Sanitising works record by record and keeps the records in order. */
  lemma {:induction false} SanitizeAppend(a: seq<RawEntry>, b: seq<RawEntry>)
    ensures Sanitize(a + b) == Sanitize(a) + Sanitize(b)
  {
    if a == [] {
      assert a + b == b;
    } else {
      var e := Coerce(a[0]);
      var keep := if ValidEntry(e) then [e] else [];
      assert (a + b)[0] == a[0];
      assert (a + b)[1..] == a[1..] + b;
      assert Sanitize(a + b) == keep + Sanitize(a[1..] + b);
      assert Sanitize(a) == keep + Sanitize(a[1..]);
      SanitizeAppend(a[1..], b);
      assert keep + (Sanitize(a[1..]) + Sanitize(b)) == (keep + Sanitize(a[1..])) + Sanitize(b);
    }
  }

  /** A single record survives exactly when its date is truthy and its minutes are positive. */
  lemma SanitizeOne(r: RawEntry)
    ensures Sanitize([r]) == if r.date.Truthy() && MinutesOf(r.minutes) > 0 then [Coerce(r)] else []
  {
  }

  /** Every record that survives is the coerced form of some input record. */
  lemma {:induction false} SanitizeFromInput(raw: seq<RawEntry>, e: Entry)
    ensures e in Sanitize(raw) <==> exists i :: 0 <= i < |raw| && Coerce(raw[i]) == e && ValidEntry(e)
  {
    if raw != [] {
      SanitizeFromInput(raw[1..], e);
      if e in Sanitize(raw[1..]) {
        var i :| 0 <= i < |raw[1..]| && Coerce(raw[1..][i]) == e && ValidEntry(e);
        assert Coerce(raw[i + 1]) == e;
      }
      if exists i :: 0 <= i < |raw| && Coerce(raw[i]) == e && ValidEntry(e) {
        var i :| 0 <= i < |raw| && Coerce(raw[i]) == e && ValidEntry(e);
        if i > 0 {
          assert Coerce(raw[1..][i - 1]) == e;
        }
      }
    }
  }

  /**
   The type never decides whether a record survives: an unknown type becomes
   moderate, and only an empty date or non-positive minutes drop a record.
   */
  lemma TypeNeverDrops(r: RawEntry)
    ensures ValidEntry(Coerce(r)) <==> r.date.Truthy() && MinutesOf(r.minutes) > 0
    ensures r.kind != Str("hard") ==> Coerce(r).kind == Moderate
  {
  }

  /** The records with their type fields replaced by `kinds`, one for one. */
  function Retyped(raw: seq<RawEntry>, kinds: seq<JsonValue>): (r: seq<RawEntry>)
    requires |kinds| == |raw|
    ensures |r| == |raw|
  {
    if raw == [] then [] else [raw[0].(kind := kinds[0])] + Retyped(raw[1..], kinds[1..])
  }

  /** Replacing every type field never changes how many records survive, or which. */
  lemma {:induction false} SanitizeIgnoresType(raw: seq<RawEntry>, kinds: seq<JsonValue>)
    requires |kinds| == |raw|
    ensures |Sanitize(Retyped(raw, kinds))| == |Sanitize(raw)|
    ensures forall i :: 0 <= i < |Sanitize(raw)| ==>
      Sanitize(Retyped(raw, kinds))[i].date == Sanitize(raw)[i].date
      && Sanitize(Retyped(raw, kinds))[i].minutes == Sanitize(raw)[i].minutes
  {
    if raw != [] {
      var re := Retyped(raw, kinds);
      assert re[0] == raw[0].(kind := kinds[0]) && re[1..] == Retyped(raw[1..], kinds[1..]);
      TypeNeverDrops(raw[0]);
      TypeNeverDrops(re[0]);
      SanitizeIgnoresType(raw[1..], kinds[1..]);
    }
  }

  /** A valid entry survives being stored and sanitised unchanged. */
  lemma CoerceStored(e: Entry)
    requires ValidEntry(e)
    ensures Coerce(ToRaw(e)) == e
  {
    match e.kind
    case Hard =>
    case Moderate => assert Str("moderate") != Str("hard");
  }

  /** Sanitising a list of valid entries removes nothing and changes nothing. */
  lemma {:induction false} SanitizeValidIsIdentity(es: seq<Entry>)
    requires AllValid(es)
    ensures Sanitize(Stored(es)) == es
  {
    if es != [] {
      CoerceStored(es[0]);
      assert Stored(es)[1..] == Stored(es[1..]);
      SanitizeValidIsIdentity(es[1..]);
    }
  }

  /** Sanitising twice is sanitising once. */
  lemma SanitizeIdempotent(raw: seq<RawEntry>)
    ensures Sanitize(Stored(Sanitize(raw))) == Sanitize(raw)
  {
    SanitizeValidIsIdentity(Sanitize(raw));
  }
}

=== FILE: js_text.dfy ===
/**
 The few JavaScript string and number conversions the renderer relies on:
 `String(n)` for integers, `Number(s)` for decimal digit strings,
 `padStart(2, '0')` and `split('-')`.
 */
module JsText {

  /** A JavaScript number as far as this model needs one: NaN or an integer. */
  datatype JsNumber = NaN | Finite(value: int)

  /** JavaScript truthiness of a number: NaN and 0 are falsy. */
  predicate Truthy(x: JsNumber) {
    x.Finite? && x.value != 0
  }

  predicate IsDigit(c: char) {
    '0' <= c <= '9'
  }

  predicate AllDigits(s: string) {
    forall i :: 0 <= i < |s| ==> IsDigit(s[i])
  }

  function DigitValue(c: char): (d: nat)
    requires IsDigit(c)
    ensures d < 10
  {
    (c as int) - ('0' as int)
  }

  function DigitChar(d: nat): (c: char)
    requires d < 10
    ensures IsDigit(c) && DigitValue(c) == d
  {
    (('0' as int) + d) as char
  }

  /** `String(n)` for a natural number: its shortest decimal text. */
  function NatText(n: nat): (s: string)
    ensures 1 <= |s| && AllDigits(s)
    ensures |s| > 1 ==> s[0] != '0'
    ensures n < 10 <==> |s| == 1
  {
    if n < 10 then [DigitChar(n)] else NatText(n / 10) + [DigitChar(n % 10)]
  }

  /** `String(n)` for any integer: a minus sign before the text of `-n` when negative. */
  function IntText(n: int): string {
    if n < 0 then "-" + NatText(-n) else NatText(n)
  }

  /** The value of a string of decimal digits (leading zeros allowed, "" is 0). */
  function DigitsValue(s: string): nat
    requires AllDigits(s)
  {
    if s == [] then 0 else DigitsValue(s[..|s| - 1]) * 10 + DigitValue(s[|s| - 1])
  }

  /**
   `Number(s)`: the empty string is 0, a string of decimal digits is its value,
   anything else is NaN in this model.
   */
  function NumberOf(s: string): (r: JsNumber)
    ensures r.Finite? <==> AllDigits(s)
    ensures r.Finite? ==> r.value >= 0
    ensures s == [] ==> r == Finite(0)
  {
    if AllDigits(s) then Finite(DigitsValue(s)) else NaN
  }

  /** `s.padStart(width, c)` for a one-character pad string. */
  function PadStart(s: string, width: nat, c: char): (r: string)
    ensures |r| == if |s| >= width then |s| else width
    ensures r[|r| - |s|..] == s
    ensures forall i :: 0 <= i < |r| - |s| ==> r[i] == c
  {
    if |s| >= width then s else Repeat(c, width - |s|) + s
  }

  function Repeat(c: char, n: nat): (r: string)
    ensures |r| == n
    ensures forall i :: 0 <= i < n ==> r[i] == c
  {
    if n == 0 then [] else [c] + Repeat(c, n - 1)
  }

  /**
   `String(k).padStart(2, '0')`, the month and day fields of a date key,
   written out case by case; `Pad2IsPadStart` shows it is that expression.
   */
  function Pad2(k: int): string {
    if 0 <= k < 10 then ['0', DigitChar(k)]
    else if 10 <= k < 100 then [DigitChar(k / 10), DigitChar(k % 10)]
    else IntText(k)
  }

  /** `s.split(sep)` for a one-character separator: always at least one part. */
  function Split(s: string, sep: char): (parts: seq<string>)
    ensures |parts| >= 1
  {
    if s == [] then [""]
    else
      var rest := Split(s[1..], sep);
      if s[0] == sep then [""] + rest else [[s[0]] + rest[0]] + rest[1..]
  }

  /** `parts.join(sep)`: the partner of Split. */
  function Join(parts: seq<string>, sep: char): string
    requires |parts| >= 1
  {
    if |parts| == 1 then parts[0] else parts[0] + [sep] + Join(parts[1..], sep)
  }

  lemma {:induction false} DigitsValueOfNatText(n: nat)
    ensures DigitsValue(NatText(n)) == n
  {
    if n >= 10 {
      var s := NatText(n);
      assert s[..|s| - 1] == NatText(n / 10);
      DigitsValueOfNatText(n / 10);
    }
  }

  function Pow10(k: nat): (p: nat)
    ensures p >= 1
  {
    if k == 0 then 1 else 10 * Pow10(k - 1)
  }

  /** A number with k + 1 digits is written with k + 1 characters. */
  lemma {:induction false} NatTextLength(n: nat, k: nat)
    requires Pow10(k) <= n < 10 * Pow10(k)
    ensures |NatText(n)| == k + 1
  {
    if k > 0 {
      NatTextLength(n / 10, k - 1);
    }
  }

  /** Number(String(n)) == n for every natural number. */
  lemma NumberOfNatText(n: nat)
    ensures NumberOf(NatText(n)) == Finite(n)
  {
    DigitsValueOfNatText(n);
  }

  /** Distinct naturals have distinct decimal texts. */
  lemma NatTextInjective(a: nat, b: nat)
    requires NatText(a) == NatText(b)
    ensures a == b
  {
    DigitsValueOfNatText(a);
    DigitsValueOfNatText(b);
  }

  /** Distinct integers have distinct texts (the sign is kept apart from the digits). */
  lemma IntTextInjective(a: int, b: int)
    requires IntText(a) == IntText(b)
    ensures a == b
  {
    if a < 0 && b < 0 {
      assert NatText(-a) == IntText(a)[1..];
      NatTextInjective(-a, -b);
    } else if a >= 0 && b >= 0 {
      NatTextInjective(a, b);
    }
  }

  /** A month or day number is written with exactly two digits that read back as it. */
  lemma Pad2IsPadStart(k: int)
    ensures Pad2(k) == PadStart(IntText(k), 2, '0')
  {
    if 0 <= k < 10 {
      assert IntText(k) == [DigitChar(k)];
      assert Repeat('0', 1) == ['0'];
    } else if 10 <= k < 100 {
      assert k / 10 < 10;
      assert NatText(k / 10) == [DigitChar(k / 10)];
      assert IntText(k) == [DigitChar(k / 10)] + [DigitChar(k % 10)];
    } else {
      assert |IntText(k)| >= 2;
    }
  }

  /** The value of a one- or two-digit string. */
  lemma ShortDigitsValue(a: char, b: char)
    requires IsDigit(a) && IsDigit(b)
    ensures DigitsValue([a]) == DigitValue(a)
    ensures DigitsValue([a, b]) == 10 * DigitValue(a) + DigitValue(b)
  {
    assert [a][..0] == [];
    assert [a, b][..1] == [a];
  }

  lemma Pad2Digits(k: int)
    requires 1 <= k < 100
    ensures |Pad2(k)| == 2 && AllDigits(Pad2(k))
    ensures DigitsValue(Pad2(k)) == k
  {
    var s := Pad2(k);
    var hi := if k < 10 then 0 else k / 10;
    assert s[..1] == [DigitChar(hi)];
    assert s[..1][..0] == [];
    assert DigitsValue(s[..1]) == hi;
  }

  lemma Pad2Injective(a: int, b: int)
    requires 1 <= a < 100 && 1 <= b < 100
    requires Pad2(a) == Pad2(b)
    ensures a == b
  {
    Pad2Digits(a);
    Pad2Digits(b);
  }

  /** Splitting and re-joining gives back the string, and no part holds the separator. */
  lemma {:induction false} SplitJoin(s: string, sep: char)
    ensures Join(Split(s, sep), sep) == s
    ensures forall i :: 0 <= i < |Split(s, sep)| ==> sep !in Split(s, sep)[i]
  {
    if s != [] {
      var rest := Split(s[1..], sep);
      SplitJoin(s[1..], sep);
      if s[0] == sep {
        assert Split(s, sep)[1..] == rest;
      } else {
        var parts := Split(s, sep);
        if |rest| == 1 {
          assert parts == [[s[0]] + rest[0]];
        } else {
          assert parts[1..] == rest[1..];
          assert Join(rest, sep) == rest[0] + [sep] + Join(rest[1..], sep);
        }
        assert forall i :: 1 <= i < |parts| ==> parts[i] == rest[i];
      }
    }
  }

  /** A string without the separator splits into itself alone. */
  lemma {:induction false} SplitNoSeparator(s: string, sep: char)
    requires sep !in s
    ensures Split(s, sep) == [s]
  {
    if s != [] {
      SplitNoSeparator(s[1..], sep);
      assert [s[0]] + s[1..] == s;
    }
  }

  /** The text before the first separator becomes the first part. */
  lemma {:induction false} SplitAtSeparator(a: string, sep: char, b: string)
    requires sep !in a
    ensures Split(a + [sep] + b, sep) == [a] + Split(b, sep)
  {
    if a == [] {
      assert (a + [sep] + b)[1..] == b;
    } else {
      assert (a + [sep] + b)[1..] == a[1..] + [sep] + b;
      SplitAtSeparator(a[1..], sep, b);
      assert [a[0]] + a[1..] == a;
    }
  }
}

=== FILE: progress.dfy ===
/**
 The arithmetic inside `showWeek` and `showFourWeeks`: per-day and per-week
 minute totals, equivalent minutes against the weekly goal, the progress
 percentage and the bar widths. The HTML they are written into is left out;
 each view is returned as a value.
 */
module Progress {
  import opened Dates
  import opened Entries

  /** Equivalent minutes per week the goal asks for. */
  const WeeklyGoal := 150

  /** Which entries a total counts, judged by the entry's date string. */
  datatype Bucket =
    | OnDate(ds: string)         // `e.date === ds`
    | OnDates(days: seq<string>) // the date is one of the given keys
    | WeekOf(ref: int)           // `isInSameWeek(e.date, ref)`

  predicate InBucket(b: Bucket, ds: string) {
    match b
    case OnDate(d) => ds == d
    case OnDates(days) => ds in days
    case WeekOf(ref) => IsInSameWeek(ds, ref)
  }

  /** `entries.filter(e => <in bucket> && e.type === kind).reduce((s, e) => s + e.minutes, 0)`. */
  function Total(es: seq<Entry>, kind: Intensity, b: Bucket): int {
    if es == [] then 0
    else (if es[0].kind == kind && InBucket(b, es[0].date) then es[0].minutes else 0) + Total(es[1..], kind, b)
  }

  /** Moderate minutes plus twice the hard minutes. */
  function EquivalentMinutes(hard: int, moderate: int): int {
    moderate + 2 * hard
  }

  /** `(eq / 150) * 100`, computed exactly. */
  function Percent(eq: int): real {
    (eq as real / WeeklyGoal as real) * 100.0
  }

  /** `Math.max(0, Math.min(p, 100))`. */
  function Clamp(p: real): (w: real)
    ensures 0.0 <= w <= 100.0
    ensures 0.0 <= p <= 100.0 ==> w == p
    ensures p >= 100.0 ==> w == 100.0
    ensures p <= 0.0 ==> w == 0.0
  {
    if p < 0.0 then 0.0 else if p > 100.0 then 100.0 else p
  }

  /** `Math.min(100, p)`. */
  function AtMost100(p: real): (w: real)
    ensures w <= 100.0
    ensures w == p || w == 100.0
    ensures w <= p
  {
    if p < 100.0 then p else 100.0
  }

  /** `Math.round(percent)`: the nearest integer, halves rounded up. */
  function RoundedPercent(eq: int): (r: int)
    ensures (r as real) - 0.5 <= Percent(eq) < (r as real) + 0.5
  {
    (4 * eq + 3) / 6
  }

  /**
   Distinct days get distinct keys. The column helpers below take the key
   function as a parameter; the views pass `Ymd`, which is injective.
   */
  ghost predicate Injective(key: int -> string) {
    forall a, b :: key(a) == key(b) ==> a == b
  }

  /** The keys of `count` consecutive days starting at `first`. */
  function Keys(key: int -> string, first: int, count: nat): (days: seq<string>)
    ensures |days| == count
    decreases count
  {
    if count == 0 then [] else [key(first)] + Keys(key, first + 1, count - 1)
  }

  /** The seven keys `showWeek` looks up, Monday first. */
  function WeekDays(monday: int): (days: seq<string>)
    ensures |days| == 7
  {
    Keys(Ymd, monday, 7)
  }

  /** One column of the week view. */
  datatype DayCell = DayCell(date: string, hard: int, moderate: int, isToday: bool)

  /** The week view: seven day columns and the progress bar under them. */
  datatype WeekSummary = WeekSummary(
    days: seq<DayCell>,
    hard: int,
    moderate: int,
    equivalent: int,
    percent: real,
    barWidth: real,
    rounded: int,
    green: bool)

  /** The column of day `d`: its key, its two per-day totals, and whether it is today. */
  function DayCellOf(es: seq<Entry>, key: int -> string, d: int, today: int): DayCell {
    var ds := key(d);
    DayCell(ds, Total(es, Hard, OnDate(ds)), Total(es, Moderate, OnDate(ds)), ds == key(today))
  }

  /** The columns of `count` consecutive days starting at `first`. */
  function Columns(es: seq<Entry>, key: int -> string, first: int, count: nat, today: int): (cells: seq<DayCell>)
    ensures |cells| == count
    decreases count
  {
    if count == 0 then [] else [DayCellOf(es, key, first, today)] + Columns(es, key, first + 1, count - 1, today)
  }

  /** `showWeek()` on the day `today`. */
  function ShowWeek(es: seq<Entry>, today: int): (w: WeekSummary)
    ensures |w.days| == 7
    ensures w.equivalent == w.moderate + 2 * w.hard
    ensures w.percent == Percent(w.equivalent)
    ensures 0.0 <= w.barWidth <= 100.0
    ensures w.green <==> w.equivalent >= WeeklyGoal
    ensures w.green <==> w.barWidth == 100.0
    ensures 0.0 <= w.percent <= 100.0 ==> w.barWidth == w.percent
    ensures (w.rounded as real) - 0.5 <= w.percent < (w.rounded as real) + 0.5
  {
    var monday := StartOfWeek(today);
    var days := Columns(es, Ymd, monday, 7, today);
    var hard := Total(es, Hard, WeekOf(today));
    var moderate := Total(es, Moderate, WeekOf(today));
    var eq := EquivalentMinutes(hard, moderate);
    var p := Percent(eq);
    GoalIffFullPercent(eq);
    WeekSummary(days, hard, moderate, eq, p, Clamp(p), RoundedPercent(eq), p >= 100.0)
  }

  /** One row of the four-week view. */
  datatype WeekRow = WeekRow(
    monday: int,
    sunday: int,
    hard: int,
    moderate: int,
    equivalent: int,
    width: real,
    green: bool)

  /** The row for the week holding `ref`. */
  function WeekRowOf(es: seq<Entry>, ref: int): (r: WeekRow)
    ensures r.monday == StartOfWeek(ref) && r.sunday == r.monday + 6
    ensures r.equivalent == r.moderate + 2 * r.hard
    ensures r.green <==> r.equivalent >= WeeklyGoal
    ensures r.width == AtMost100(Percent(r.equivalent))
  {
    var monday := StartOfWeek(ref);
    var hard := Total(es, Hard, WeekOf(ref));
    var moderate := Total(es, Moderate, WeekOf(ref));
    var eq := EquivalentMinutes(hard, moderate);
    WeekRow(monday, monday + 6, hard, moderate, eq, AtMost100(Percent(eq)), eq >= WeeklyGoal)
  }

  /** `showFourWeeks()` on the day `today`: this week and the three before it. */
  function FourWeeks(es: seq<Entry>, today: int): (rows: seq<WeekRow>)
    ensures |rows| == 4
    ensures rows[0].monday == StartOfWeek(today)
    ensures forall w :: 0 <= w < 3 ==> rows[w + 1].monday == rows[w].monday - 7
    ensures forall w :: 0 <= w < 4 ==> IsMonday(rows[w].monday) && rows[w].sunday == rows[w].monday + 6
  {
    FourMondays(today);
    [WeekRowOf(es, today), WeekRowOf(es, today - 7), WeekRowOf(es, today - 14), WeekRowOf(es, today - 21)]
  }

  /* ---------------------------- lemmas ---------------------------- */

  lemma YmdIsInjective()
    ensures Injective(Ymd)
  {
    forall a, b | Ymd(a) == Ymd(b)
      ensures a == b
    {
      YmdEqualIff(a, b);
    }
  }

  lemma {:induction false} KeyAt(key: int -> string, first: int, count: nat, i: nat)
    requires i < count
    ensures Keys(key, first, count)[i] == key(first + i)
    decreases count
  {
    if i > 0 {
      KeyAt(key, first + 1, count - 1, i - 1);
    }
  }

  lemma {:induction false} ColumnAt(es: seq<Entry>, key: int -> string, first: int, count: nat, today: int, i: nat)
    requires i < count
    ensures Columns(es, key, first, count, today)[i] == DayCellOf(es, key, first + i, today)
    decreases count
  {
    if i > 0 {
      ColumnAt(es, key, first + 1, count - 1, today, i - 1);
    }
  }

  /** The column for day `monday + i` is marked as today exactly when it is today. */
  lemma TodayColumn(es: seq<Entry>, today: int, i: nat)
    requires i < 7
    ensures ShowWeek(es, today).days[i].isToday <==> StartOfWeek(today) + i == today
  {
    var monday := StartOfWeek(today);
    assert ShowWeek(es, today).days == Columns(es, Ymd, monday, 7, today);
    YmdIsInjective();
    ColumnIsToday(es, Ymd, monday, 7, today, i);
  }

  lemma ColumnIsToday(es: seq<Entry>, key: int -> string, first: int, count: nat, today: int, i: nat)
    requires Injective(key) && i < count
    ensures Columns(es, key, first, count, today)[i].isToday <==> first + i == today
  {
    ColumnAt(es, key, first, count, today, i);
  }

  /** Column `i` of the week view shows the key of day `monday + i` and that day's totals. */
  lemma ColumnContents(es: seq<Entry>, today: int, i: nat)
    requires i < 7
    ensures var cell, ds := ShowWeek(es, today).days[i], Ymd(StartOfWeek(today) + i);
      && cell.date == ds
      && cell.hard == Total(es, Hard, OnDate(ds))
      && cell.moderate == Total(es, Moderate, OnDate(ds))
  {
    ColumnAt(es, Ymd, StartOfWeek(today), 7, today, i);
  }

  /** The bar turns green at 100 percent exactly when the goal of 150 equivalent minutes is met. */
  lemma GoalIffFullPercent(eq: int)
    ensures Percent(eq) >= 100.0 <==> eq >= WeeklyGoal
  {
    assert Percent(eq) == (eq as real) * 2.0 / 3.0;
  }

  /** Hard minutes count double: 75 hard or 150 moderate minutes each meet the goal. */
  lemma GoalExamples()
    ensures EquivalentMinutes(75, 0) == WeeklyGoal
    ensures EquivalentMinutes(0, 150) == WeeklyGoal
    ensures EquivalentMinutes(74, 1) < WeeklyGoal
  {
  }

  /** The reference days are `today - 7w`, so their Mondays step back one week at a time. */
  lemma FourMondays(today: int)
    ensures forall w :: 0 <= w < 4 ==> StartOfWeek(today - 7 * w) == StartOfWeek(today) - 7 * w
  {
    forall w | 0 <= w < 4
      ensures StartOfWeek(today - 7 * w) == StartOfWeek(today) - 7 * w
    {
      StartOfWeekShift(today, w);
    }
  }

  /** Totals over valid entries are never negative. */
  lemma {:induction false} TotalNonNegative(es: seq<Entry>, kind: Intensity, b: Bucket)
    requires AllValid(es)
    ensures Total(es, kind, b) >= 0
  {
    if es != [] {
      TotalNonNegative(es[1..], kind, b);
    }
  }

  /** Over a sanitised list, every small bar lies in [0, 100] and is full exactly when the row is green. */
  lemma FourWeekBars(es: seq<Entry>, today: int)
    requires AllValid(es)
    ensures forall w :: 0 <= w < 4 ==>
      && 0.0 <= FourWeeks(es, today)[w].width <= 100.0
      && (FourWeeks(es, today)[w].green <==> FourWeeks(es, today)[w].width == 100.0)
  {
    forall w | 0 <= w < 4
      ensures 0.0 <= FourWeeks(es, today)[w].width <= 100.0
      ensures FourWeeks(es, today)[w].green <==> FourWeeks(es, today)[w].width == 100.0
    {
      var ref := today - 7 * w;
      TotalNonNegative(es, Hard, WeekOf(ref));
      TotalNonNegative(es, Moderate, WeekOf(ref));
      var row := WeekRowOf(es, ref);
      GoalIffFullPercent(row.equivalent);
    }
  }

  /** The first row of the four-week view shows the same week, totals and goal state as the week view. */
  lemma ViewsAgree(es: seq<Entry>, today: int)
    ensures var w, row := ShowWeek(es, today), FourWeeks(es, today)[0];
      && row.hard == w.hard && row.moderate == w.moderate
      && row.equivalent == w.equivalent && row.green == w.green
  {
    FourWeeksAreWeekViews(es, today, 0);
    assert today - 7 * 0 == today;
  }

  /**
   Row w of the four-week view is the week view of the day 7w days before
   today: the same week, the same totals and goal state, and a small bar that
   is the week view's percentage capped at 100.
   */
  lemma FourWeeksAreWeekViews(es: seq<Entry>, today: int, w: int)
    requires 0 <= w < 4
    ensures var row, v := FourWeeks(es, today)[w], ShowWeek(es, today - 7 * w);
      && row.monday == StartOfWeek(today - 7 * w)
      && row.hard == v.hard && row.moderate == v.moderate
      && row.equivalent == v.equivalent && row.green == v.green
      && row.width == AtMost100(v.percent)
  {
    RowOfFourWeeks(es, today, w);
    WeekViewTotals(es, today - 7 * w);
  }

  /** Row w of the four-week view is the row of the week holding today − 7w. */
  lemma RowOfFourWeeks(es: seq<Entry>, today: int, w: int)
    requires 0 <= w < 4
    ensures FourWeeks(es, today)[w] == WeekRowOf(es, today - 7 * w)
  {
    if w == 0 {
    } else if w == 1 {
    } else if w == 2 {
    } else {
    }
  }

  /** The week view's totals are the week totals of the day it is drawn on. */
  lemma WeekViewTotals(es: seq<Entry>, ref: int)
    ensures ShowWeek(es, ref).hard == Total(es, Hard, WeekOf(ref))
    ensures ShowWeek(es, ref).moderate == Total(es, Moderate, WeekOf(ref))
  {
  }

  /** A single record adds its minutes exactly when its intensity and date match. */
  lemma TotalSingle(e: Entry, kind: Intensity, b: Bucket)
    ensures Total([e], kind, b) == if e.kind == kind && InBucket(b, e.date) then e.minutes else 0
  {
  }

  /** The totals add up over a concatenation, so the order of the records does not matter. */
  lemma {:induction false} TotalAppend(a: seq<Entry>, b: seq<Entry>, kind: Intensity, bk: Bucket)
    ensures Total(a + b, kind, bk) == Total(a, kind, bk) + Total(b, kind, bk)
  {
    if a == [] {
      assert a + b == b;
    } else {
      assert (a + b)[0] == a[0];
      assert (a + b)[1..] == a[1..] + b;
      TotalAppend(a[1..], b, kind, bk);
    }
  }

  /* ------------------- the week total is the sum of its day columns ------------------- */

  /** The sum of the per-day totals over a list of keys. */
  function SumOfDays(es: seq<Entry>, kind: Intensity, days: seq<string>): int {
    if days == [] then 0 else Total(es, kind, OnDate(days[0])) + SumOfDays(es, kind, days[1..])
  }

  /** The sum of one intensity over the columns of the week view. */
  function ColumnSum(cells: seq<DayCell>, kind: Intensity): int {
    if cells == [] then 0
    else (if kind == Hard then cells[0].hard else cells[0].moderate) + ColumnSum(cells[1..], kind)
  }

  /** Totals only depend on which entries the bucket admits. */
  lemma {:induction false} TotalCongruent(es: seq<Entry>, kind: Intensity, b1: Bucket, b2: Bucket)
    requires forall i :: 0 <= i < |es| ==> (InBucket(b1, es[i].date) <==> InBucket(b2, es[i].date))
    ensures Total(es, kind, b1) == Total(es, kind, b2)
  {
    if es != [] {
      TotalCongruent(es[1..], kind, b1, b2);
    }
  }

  /** Adding one more key that is not yet counted adds that day's total. */
  lemma {:induction false} TotalAddDay(es: seq<Entry>, kind: Intensity, d: string, rest: seq<string>)
    requires d !in rest
    ensures Total(es, kind, OnDates([d] + rest)) == Total(es, kind, OnDate(d)) + Total(es, kind, OnDates(rest))
  {
    if es != [] {
      TotalAddDay(es[1..], kind, d, rest);
    }
  }

  lemma {:induction false} NoDayNoMinutes(es: seq<Entry>, kind: Intensity)
    ensures Total(es, kind, OnDates([])) == 0
  {
    if es != [] {
      NoDayNoMinutes(es[1..], kind);
    }
  }

  /** The key of day `x` is among the keys of a run of days exactly when `x` is in the run. */
  lemma {:induction false} KeysMembership(key: int -> string, first: int, count: nat, x: int)
    requires Injective(key)
    ensures key(x) in Keys(key, first, count) <==> first <= x < first + count
    decreases count
  {
    if count > 0 {
      assert key(x) == key(first) <==> x == first;
      KeysMembership(key, first + 1, count - 1, x);
    }
  }

  /** Summing day by day over a run of days counts every entry on one of those days once. */
  lemma {:induction false} SumOfKeys(es: seq<Entry>, kind: Intensity, key: int -> string, first: int, count: nat)
    requires Injective(key)
    ensures SumOfDays(es, kind, Keys(key, first, count)) == Total(es, kind, OnDates(Keys(key, first, count)))
    decreases count
  {
    if count == 0 {
      NoDayNoMinutes(es, kind);
    } else {
      var days := Keys(key, first, count);
      assert days[0] == key(first) && days[1..] == Keys(key, first + 1, count - 1);
      SumOfKeys(es, kind, key, first + 1, count - 1);
      KeysMembership(key, first + 1, count - 1, first);
      TotalAddDay(es, kind, key(first), Keys(key, first + 1, count - 1));
    }
  }

  /** A canonical key is in `ref`'s week exactly when it is one of that week's seven keys. */
  lemma CanonicalInWeek(ds: string, ref: int)
    requires Canonical(ds)
    ensures IsInSameWeek(ds, ref) <==> ds in WeekDays(StartOfWeek(ref))
  {
    var x := ParseDate(ds).value;
    assert ds == Ymd(x);
    SameWeekIffBlock(ref, x);
    YmdIsInjective();
    KeysMembership(Ymd, StartOfWeek(ref), 7, x);
  }

  /**
   When every entry's date is a canonical `ymd` key, the week's total of an
   intensity is the sum of its seven day totals.
   */
  lemma WeekTotalIsSumOfDays(es: seq<Entry>, kind: Intensity, today: int)
    requires forall i :: 0 <= i < |es| ==> Canonical(es[i].date)
    ensures Total(es, kind, WeekOf(today)) == SumOfDays(es, kind, WeekDays(StartOfWeek(today)))
  {
    var days := WeekDays(StartOfWeek(today));
    forall i | 0 <= i < |es|
      ensures InBucket(WeekOf(today), es[i].date) <==> InBucket(OnDates(days), es[i].date)
    {
      CanonicalInWeek(es[i].date, today);
    }
    TotalCongruent(es, kind, WeekOf(today), OnDates(days));
    YmdIsInjective();
    SumOfKeys(es, kind, Ymd, StartOfWeek(today), 7);
  }

  lemma {:induction false} ColumnsAreDayTotals(es: seq<Entry>, kind: Intensity, key: int -> string, first: int, count: nat, today: int)
    ensures ColumnSum(Columns(es, key, first, count, today), kind) == SumOfDays(es, kind, Keys(key, first, count))
    decreases count
  {
    if count > 0 {
      var cells, days := Columns(es, key, first, count, today), Keys(key, first, count);
      assert cells[1..] == Columns(es, key, first + 1, count - 1, today);
      assert days[1..] == Keys(key, first + 1, count - 1);
      ColumnsAreDayTotals(es, kind, key, first + 1, count - 1, today);
    }
  }

  /**
   With canonical dates, the hard and moderate totals under the week view
   equal the sums of the seven columns shown above them.
   */
  lemma DayColumnsAddUp(es: seq<Entry>, today: int)
    requires forall i :: 0 <= i < |es| ==> Canonical(es[i].date)
    ensures ShowWeek(es, today).hard == ColumnSum(ShowWeek(es, today).days, Hard)
    ensures ShowWeek(es, today).moderate == ColumnSum(ShowWeek(es, today).days, Moderate)
  {
    var monday := StartOfWeek(today);
    WeekTotalIsSumOfDays(es, Hard, today);
    WeekTotalIsSumOfDays(es, Moderate, today);
    ColumnsAreDayTotals(es, Hard, Ymd, monday, 7, today);
    ColumnsAreDayTotals(es, Moderate, Ymd, monday, 7, today);
  }

  /** A day no entry is dated on has no minutes. */
  lemma {:induction false} UnusedDay(es: seq<Entry>, kind: Intensity, d: string)
    requires forall i :: 0 <= i < |es| ==> es[i].date != d
    ensures Total(es, kind, OnDate(d)) == 0
  {
    if es != [] {
      UnusedDay(es[1..], kind, d);
    }
  }

  /** Keys no entry is dated on add up to nothing. */
  lemma {:induction false} UnusedDays(es: seq<Entry>, kind: Intensity, days: seq<string>)
    requires forall i, j :: 0 <= i < |es| && 0 <= j < |days| ==> es[i].date != days[j]
    ensures SumOfDays(es, kind, days) == 0
  {
    if days != [] {
      UnusedDay(es, kind, days[0]);
      UnusedDays(es, kind, days[1..]);
    }
  }

  /** A string no day has as its key is among no run of keys. */
  lemma {:induction false} NotAmongKeys(key: int -> string, ds: string, first: int, count: nat)
    requires forall x :: key(x) != ds
    ensures ds !in Keys(key, first, count)
    decreases count
  {
    if count > 0 {
      NotAmongKeys(key, ds, first + 1, count - 1);
    }
  }

  /** A string that does not end in `-DD` is none of a week's keys. */
  lemma NotInWeekDays(ds: string, monday: int)
    requires |ds| >= 3 && ds[|ds| - 3] != '-'
    ensures ds !in WeekDays(monday)
  {
    forall x
      ensures Ymd(x) != ds
    {
      NotAKey(ds, x);
    }
    NotAmongKeys(Ymd, ds, monday, 7);
  }

  /**
   Without canonical dates the columns can miss minutes the week total
   counts: a date string that parses, but does not end in `-DD` (such as
   `2024-1-1`), is counted in its week and matches no column key.
   */
  lemma NonCanonicalDateEscapesColumns(ds: string, kind: Intensity, minutes: int)
    requires ParseDate(ds).Some? && |ds| >= 3 && ds[|ds| - 3] != '-'
    ensures var n, es := ParseDate(ds).value, [Entry(ds, kind, minutes)];
      && Total(es, kind, WeekOf(n)) == minutes
      && SumOfDays(es, kind, WeekDays(StartOfWeek(n))) == 0
  {
    var n, es := ParseDate(ds).value, [Entry(ds, kind, minutes)];
    assert IsInSameWeek(ds, n);
    assert Total(es, kind, WeekOf(n)) == minutes by {
      assert Total(es[1..], kind, WeekOf(n)) == 0;
    }
    var days := WeekDays(StartOfWeek(n));
    NotInWeekDays(ds, StartOfWeek(n));
    UnusedDays(es, kind, days);
  }
}

=== FILE: wrappers.dfy ===
/** Optional values, used for JavaScript's `undefined` and for an Invalid Date. */
module Wrappers {

  datatype Option<+T> = None | Some(value: T)
}
